=== FILE: README.md ===
# MongoDB connection pool (magicDB) in Dafny

This project models the hand-rolled connection pool of magicDB's `mongo.go`.
A `MongoDB` object holds three things:

- an idle free list `cs` of `mongoClient` connections;
- a live counter `size`, meaning connections dialled and not yet evicted or drained;
- the configured bounds `MinClient` and `MaxClient`.

Five operations act on that state:

- `Init` pre-warms the pool.
- `getClient` acquires a connection. It reuses the front of the free list after a liveness ping, or dials a new connection when nothing is idle and `size < MaxClient`, or fails fast with "dbpooling is fulled".
- `freeClient` hands a connection back.
- `Close` drains the pool.
- Every facade verb acquires a connection, runs one driver call and releases the connection with a deferred `freeClient`.

The model has three modules:

- `PoolSpec` (pool_spec.dfy) states each step on values and proves the pool's properties:
  - exhaustion is fail-fast;
  - reuse is FIFO;
  - a failed ping evicts the connection;
  - the bound `size <= MaxClient` holds, and so does the accounting invariant;
  - drain-to-zero, when nobody acquires during the drain.

  Connections are of an abstract type. A dial and a ping enter as outcome parameters.
- `MongoPool` (mongo_pool.dfy) holds classes `MongoClient` and `MongoDB`. Their methods update `cs`, `size` and a connection's handle in place, and each method is proved against the `PoolSpec` step it performs. A ghost multiset `out` records the connections callers hold.
- `AsWritten` (as_written.dfy) models the two places where the code as written defeats its evident intent. They are listed under "## Findings".

Each locked region is one atomic step. The network is a parameter: `dialOk` is the outcome of `connect` and `pingOk` is the outcome of `Ping`.

The model follows the code:

- A failed ping returns the ping error to the caller. Nothing is retried.
- Reuse takes the oldest idle connection, `cs[0]`.
- A failed dial in `Init` stops `Init` through an assertion rather than returning an error.

## Model

| member | source | states |
|---|---|---|
| PoolSpec.GetClientStep | mongo.go:136-173 | A dial happens exactly when nothing is idle and size < MaxClient. Reuse hands out cs[0] and keeps the rest in order. A failed ping closes cs[0], does not return it, lowers size by exactly one and reports PingFailed. Exhaustion returns PoolFulled and changes nothing. A successful dial raises size by one and hands the new connection to the caller without listing it. A failed dial changes nothing. Size grows only behind the room check. |
| PoolSpec.CloseStep | mongo.go:107-127 | One drain pass: it stops iff size is 0, and waits without change iff nothing is idle while size > 0. Otherwise it closes every idle connection, empties cs and subtracts their count from size. |
| PoolSpec.CloseRun | mongo.go:106-128 | Close's whole drain loop with releases between polls. It ends with size 0 or nothing idle. Each closed connection is counted out once. The connections it closed, followed by those still idle, are a prefix of the initially idle connections followed by every released batch in order. A run that ends with size != 0 has closed all of them and left nothing idle. A run that starts with size != 0 leaves nothing idle, since size reaches 0 only through a pass that closes every idle connection. |
| PoolSpec.CloseRunDrains | mongo.go:106-128 | When the connections handed back during the waits account for the whole counter, the drain loop ends with an empty free list and size 0. It has then closed exactly the initially idle connections followed by every connection handed back. |
| PoolSpec.FreeClientStep | mongo.go:130-134 | freeClient on values: the given connection is appended at the end of cs and size is unchanged. |
| PoolSpec.CloseStepKeepsInv | mongo.go:107-127 | A drain pass keeps the accounting invariant, so held connections stay counted. |
| PoolSpec.GetClientKeepsInv | mongo.go:136-173 | When the dialled connection is new, getClient preserves the invariant: 0 <= size <= MaxClient, idle plus held equals size, and no connection is in two places. |
| PoolSpec.FreeClientKeepsInv | mongo.go:130-134 | Freeing a connection the caller holds preserves the same invariant. |
| PoolSpec.StepKeepsInv | mongo.go:130-173 | Any one well-behaved acquire or release preserves the invariant. |
| PoolSpec.RunKeepsInv | mongo.go:130-173 | Every sequence of well-behaved acquires and releases preserves the invariant. In particular idle length never exceeds size, and a connection is never held by two callers. |
| PoolSpec.RunKeepsBound | mongo.go:140-154 | Every sequence of acquires and releases keeps size <= MaxClient once it starts there, even with misbehaving releases. |
| PoolSpec.DoubleFreeBreaksAccounting | mongo.go:130-134 | freeClient checks no membership: from any pool satisfying the invariant, freeing a connection that is already idle leaves one more connection accounted for than size holds, and the invariant is lost. |
| PoolSpec.DialsUntilFailure | mongo.go:85-99 | Init's dial count stops at the first failed dial or after MinClient dials. Every dial before it succeeded. |
| PoolSpec.DialsUntilFailureIs | mongo.go:85-99 | The count is the unique point where all earlier dials succeeded and either MinClient is reached or this dial fails. |
| PoolSpec.AllDialsSucceed | mongo.go:85-99 | When every dial succeeds, Init dials exactly MinClient connections. |
| PoolSpec.PrewarmedInv | mongo.go:85-98 | A pool pre-warmed with MinClient distinct connections and nothing held satisfies the invariant iff MinClient <= MaxClient. |
| PoolSpec.MinTwoMaxThreeScenario | mongo.go:136-173 | With MinClient 2 and MaxClient 3, two acquires reuse without dialling. The third dials and brings size to 3. The fourth fails with PoolFulled and dials nothing. |
| MongoPool.MongoClient.constructor | mongo.go:86 | A new mongoClient has no driver handle. |
| MongoPool.MongoClient.Connect | mongo.go:22-56 | connect succeeds iff the dial outcome says so, and only then keeps a handle. |
| MongoPool.MongoClient.Close | mongo.go:58-64 | close drops the handle. |
| MongoPool.MongoDB.constructor | mongo.go:69-77 | A configured pool starts with an empty free list, size 0 and nothing held. |
| MongoPool.MongoDB.Init | mongo.go:82-102 | Init appends one fresh, connected, distinct client per successful dial after the old list and raises size by the same number. The number is MinClient, or the index of the first failed dial, which aborts. From an empty pool with 0 <= MaxClient and MinClient <= MaxClient the invariant holds afterwards. |
| MongoPool.MongoDB.GetClient | mongo.go:136-173 | The new cs, size and result are those of GetClientStep. A dialled client is fresh and connected. A client that fails its ping is closed. A client that passes is untouched. The invariant is preserved, including that every idle or held client is connected, so a client handed out from a valid pool is connected. |
| MongoPool.MongoDB.FreeClient | mongo.go:130-134 | cs becomes the old cs with the given client appended and size is unchanged. The invariant is preserved when the client was held. |
| MongoPool.MongoDB.DrainStep | mongo.go:107-127 | The new cs, size and outcome are those of CloseStep. After a close-all every previously idle client is disconnected. Otherwise no client changes. The invariant is preserved. A valid pool lists each client once and only connected ones, so each close is that client's first. |
| MongoPool.Forward | mongo.go:191-196 | The facade hands back the driver's result or error unchanged and never turns it into a pool error. |
| MongoPool.MongoDB.Borrow | mongo.go:181-197 | A facade verb's acquire-then-deferred-release. On a pool error the driver result is not used and the error is returned. Otherwise the driver result is forwarded and the connection ends at the back of the free list. A reused one rotates from front to back, and a dialled one becomes the only idle connection. The held set is unchanged. |
| AsWritten.InitAsWritten | mongo.go:85-99 | Init as written: for MinClient >= 1 the first pass panics at the `err.Error()` evaluation or at the assertion. Nothing is listed or counted, and a successfully dialled client is leaked. |
| AsWritten.InitAsWrittenNeverPrewarms | mongo.go:96 | With every dial succeeding, as-written Init panics with the state unchanged, while the intended count is MinClient. |
| AsWritten.ClosePassAsWritten | mongo.go:107-127 | One as-written Close pass. With size 0 it breaks with the state unchanged and the mutex released. With nothing idle it loops with the state unchanged and the mutex released. The close-all branch loops holding the mutex, and a pass that starts with it held deadlocks. |
| AsWritten.CloseAsWrittenDeadlocks | mongo.go:108-126 | As-written Close with an idle connection and size != 0 deadlocks on its second pass. With everything idle, the intended loop ends drained. |

## Findings

| source | as written | input that shows it | evidently intended | confidence | as-written member | corrected member |
|---|---|---|---|---|---|---|
| mongo.go:96 | `util.AssertEmpty(err != nil, err.Error())` evaluates `err.Error()` also when `err` is nil, which is a method call on a nil interface | MinClient = 1 and the dial succeeds: Init panics, and the connected client is neither listed nor counted | panic only on a dial error, and otherwise append and count the client | high, not executed | AsWritten.InitAsWrittenNeverPrewarms | MongoPool.MongoDB.Init |
| mongo.go:108, 121-126 | the close-all branch of Close never unlocks the mutex it took at the top of the pass, so the next pass's `Lock` blocks forever | size = 1, cs = [c]: the first pass closes c and keeps the lock, and the second pass deadlocks | unlock at the end of every pass, so Close returns once size reaches 0 | high, not executed | AsWritten.CloseAsWrittenDeadlocks | PoolSpec.CloseRunDrains |

## Left out

- The driver calls `mongo.Connect`, `client.Database`, `Ping` and `Disconnect` become outcome parameters (`dialOk`, `pingOk`) or a handle flag. The per-verb `Collection(...)` calls are foreign library calls: `Borrow` models their shared acquire/forward/release pattern with the driver result as a parameter, not each verb.
- `context.WithTimeout`, deadlines and `time.Sleep` are timing. Close's sleep between polls is represented only by the releases recorded in `CloseRun`'s `released` list.
- `sync.Mutex` and interleavings: each locked region is one atomic step. The mutex appears only in `AsWritten.ClosePassAsWritten`, to show the deadlock.
- The `MongoDeplay` configuration and `util.AssertEmpty`, which come from a package that is not part of this model. The configuration is opaque. The assertion is taken to stop `Init` when its condition holds.
- The `Find` result aliasing of the decode target concerns driver decoding, not pool state.
- util/goroutine.go is a debug helper that reads the goroutine id and has no bearing on the pool.
- PoolSpec.CloseRun: models only releases between polls. A getClient during the drain can pop a released connection, evict one, or dial and raise size, and none of that is modelled. So drain-to-zero is proved only for a drain during which nobody acquires.
- PoolSpec.CloseRun: stops when its recorded releases run out while it is still waiting. It does not model the rest of an unbounded wait.
- MongoPool.MongoDB.Init: the invariant is promised only for an `Init` on a freshly configured pool (empty, zero, nothing held). The source is assumed to call Init once, on a freshly configured pool; no caller of Init is part of this model.
- MongoPool.MongoClient.Close: a second close of the same client is modelled as a no-op. In the source it calls `Disconnect` on the nil handle left by the first close. The model does not capture what the driver does then.
- MongoPool.MongoDB.DrainStep: closes each listed entry once. After a caller frees a client twice it closes that client twice, which hits the second-close case above. The model promises single closes only from a valid pool, where no client is listed twice.
- MongoPool.MongoDB.GetClient: a ping on a client that was already closed, which could happen after a caller frees a closed client, is an outcome parameter like any other ping. The nil-handle dereference the real driver would hit is not modelled.

=== FILE: as_written.dfy ===
/** Two places where mongo.go as written does not do what its pool evidently
    intends, modelled as written so that the difference can be stated.  The
    rest of the model (PoolSpec, MongoPool) uses the intended behaviour. */
module AsWritten {
  import opened PoolSpec

  // ----- Init -----

  /** How Init ends as written. */
  datatype InitEnd<C> =
    | Returned(post: PoolState<C>)
    | Panicked(post: PoolState<C>, leaked: bool)  // `leaked`: a connected client is neither listed nor counted

  /** Init as written.  Each pass evaluates `err.Error()` before the
      assertion sees `err != nil`: with a nil `err` (the dial succeeded) that
      is a method call on a nil interface, which panics; with a non-nil `err`
      the assertion itself stops Init.  Either way the first pass ends Init
      before anything is appended or counted. */
  function InitAsWritten<C>(s: PoolState<C>, minClient: int, dialOk: nat -> bool): (r: InitEnd<C>)
    ensures r.post == s
    ensures r.Returned? <==> minClient <= 0
    ensures r.Panicked? ==> (r.leaked <==> dialOk(0))
  {
    if minClient <= 0 then Returned(s)
    else Panicked(s, dialOk(0))
  }

  /** As written, Init pre-warms nothing even when every dial succeeds,
      whereas the intended Init (MongoPool.MongoDB.Init) pre-warms MinClient
      connections. */
  lemma InitAsWrittenNeverPrewarms<C>(s: PoolState<C>, minClient: nat, dialOk: nat -> bool)
    requires minClient >= 1
    requires forall j :: 0 <= j < minClient ==> dialOk(j)
    ensures InitAsWritten(s, minClient, dialOk) == Panicked(s, true)
    ensures DialsUntilFailure(dialOk, 0, minClient) == minClient
  {
    AllDialsSucceed(dialOk, minClient);
  }

  // ----- Close -----

  /** How one pass of Close's loop ends as written. */
  datatype ClosePass<C> =
    | Broke(post: PoolState<C>)                        // size was zero: unlock and return
    | Looped(post: PoolState<C>, lockHeld: bool)       // go round again, with or without the mutex
    | Deadlocked                                       // Lock on a mutex this loop already holds

  /** One pass of Close's loop as written: the close-all branch never
      unlocks the mutex it took at the top of the pass. */
  function ClosePassAsWritten<C>(s: PoolState<C>, lockHeld: bool): (r: ClosePass<C>)
    ensures r.Deadlocked? <==> lockHeld
    ensures !lockHeld && s.size != 0 && |s.cs| > 0 ==> r == Looped(CloseStep(s).post, true)
    ensures !lockHeld ==> (r.Broke? <==> CloseStep(s).outcome == Stopped)
    ensures !lockHeld && s.size == 0 ==> r == Broke(s)
    ensures !lockHeld && s.size != 0 && |s.cs| == 0 ==> r == Looped(s, false)
  {
    if lockHeld then Deadlocked
    else if s.size == 0 then Broke(s)
    else if |s.cs| == 0 then Looped(s, false)
    else Looped(PoolState([], s.size - |s.cs|), true)
  }

  /** As written, Close never returns once it finds an idle connection: the
      pass after the close-all blocks on its own mutex.  This holds even when
      every connection is idle, where the intended loop (PoolSpec.CloseRun)
      ends with an empty, zero-counted pool. */
  lemma CloseAsWrittenDeadlocks<C>(s: PoolState<C>)
    requires s.size != 0 && |s.cs| > 0
    ensures var first := ClosePassAsWritten(s, false);
            first.Looped? && first.lockHeld && ClosePassAsWritten(first.post, first.lockHeld).Deadlocked?
    ensures s.size == |s.cs| ==> CloseRun(s, []).post == PoolState([], 0)
  {
    if s.size == |s.cs| {
      CloseRunDrains(s, []);
    }
  }
}

=== FILE: mongo_pool.dfy ===
/** The MongoDB pool object of mongo.go and its connections, as classes whose
    methods update their fields in place.  Each method is proved against the
    value-level steps of PoolSpec; the network enters as outcome parameters. */
module MongoPool {
  import opened PoolSpec

  /** One connection (mongoClient).  `connected` stands for the driver
      handle being set: connect sets it, close clears it. */
  class MongoClient {
    var connected: bool

    constructor ()
      ensures !connected
    {
      connected := false;
    }

    /** connect: the dial and the database lookup, whose combined outcome
        is `dialOk`; on failure no handle is kept. */
    method Connect(dialOk: bool) returns (ok: bool)
      modifies this
      ensures ok == dialOk && connected == dialOk
    {
      ok := dialOk;
      connected := dialOk;
    }

    /** close: disconnect and drop the handle. */
    method Close()
      modifies this
      ensures !connected
    {
      connected := false;
    }
  }

  /** The reply of a facade verb. */
  datatype Reply<T> = Ok(value: T) | PoolErr(error: Error) | DriverErr(reason: string)

  /** What the database driver reports for the operation a facade verb runs. */
  datatype DriverResult<T> = Success(value: T) | Failure(reason: string)

  /** The facade forwards the driver's result and error unchanged. */
  function Forward<T>(d: DriverResult<T>): (r: Reply<T>)
    ensures !r.PoolErr?
    ensures r.Ok? <==> d.Success?
    ensures d.Success? ==> r.value == d.value
    ensures d.Failure? ==> r.reason == d.reason
  {
    match d
    case Success(v) => Ok(v)
    case Failure(m) => DriverErr(m)
  }

  class MongoDB {
    /** The idle free list. */
    var cs: seq<MongoClient>
    /** The live counter. */
    var size: int
    const minClient: int
    const maxClient: int
    /** The connections callers hold at the moment. */
    ghost var out: multiset<MongoClient>

    ghost function State(): PoolState<MongoClient>
      reads this
    {
      PoolState(cs, size)
    }

    /** The accounting invariant, and every idle or held client still has
        its handle: the pool never lists or hands out a closed client. */
    ghost predicate Valid()
      reads this, cs, out
    {
      && Inv(World(State(), out), maxClient)
      && (forall c | c in cs :: c.connected)
      && (forall c | c in out :: c.connected)
    }

    /** A pool as the configuration creates it, before Init. */
    constructor (minClient: int, maxClient: int)
      ensures this.minClient == minClient && this.maxClient == maxClient
      ensures cs == [] && size == 0 && out == multiset{}
      ensures 0 <= maxClient ==> Valid()
    {
      this.minClient := minClient;
      this.maxClient := maxClient;
      cs := [];
      size := 0;
      out := multiset{};
    }

    /** Init: dial MinClient connections one after the other, appending each
        to the free list and counting it; `dialOk(i)` is the outcome of the
        i-th dial.  A failed dial aborts (`aborted`), leaving what was added
        before it. */
    method Init(dialOk: nat -> bool) returns (aborted: bool)
      modifies this
      ensures var k := DialsUntilFailure(dialOk, 0, minClient);
              && aborted == (k < minClient)
              && |cs| == |old(cs)| + k && cs[..|old(cs)|] == old(cs)
              && size == old(size) + k
      ensures forall i | |old(cs)| <= i < |cs| :: fresh(cs[i]) && cs[i].connected
      ensures Distinct(cs[|old(cs)|..])
      ensures out == old(out)
      ensures old(cs) == [] && old(size) == 0 && old(out) == multiset{} && minClient <= maxClient && 0 <= maxClient ==> Valid()
    {
      ghost var n0 := |cs|;
      var i: nat := 0;
      aborted := false;
      while i < minClient
        invariant i <= minClient || i == 0
        invariant forall j :: 0 <= j < i ==> dialOk(j)
        invariant |cs| == n0 + i && cs[..n0] == old(cs) && size == old(size) + i
        invariant forall j | n0 <= j < |cs| :: fresh(cs[j]) && cs[j].connected
        invariant Distinct(cs[n0..])
        invariant out == old(out)
      {
        var mgc := new MongoClient();
        var ok := mgc.Connect(dialOk(i));
        if !ok {
          DialsUntilFailureIs(dialOk, minClient, i);
          assert n0 == 0 ==> cs[n0..] == cs;
          aborted := true;
          return;
        }
        cs := cs + [mgc];
        size := size + 1;
        i := i + 1;
      }
      DialsUntilFailureIs(dialOk, minClient, i);
      assert n0 == 0 ==> cs[n0..] == cs;
    }

    /** freeClient: append the connection to the end of the free list. */
    method FreeClient(free: MongoClient)
      modifies this
      ensures cs == old(cs) + [free] && size == old(size)
      ensures out == old(out) - multiset{free}
      ensures old(Valid()) && free in old(out) ==> Valid()
    {
      ghost var w := World(State(), out);
      cs := cs + [free];
      out := out - multiset{free};
      if Inv(w, maxClient) && free in w.out {
        FreeClientKeepsInv(w, maxClient, free);
      }
    }

    /** getClient: reuse the front of the free list after a probe whose
        outcome is `pingOk`, or dial a new connection (outcome `dialOk`) when
        none is idle and size < MaxClient, or fail fast. */
    method GetClient(dialOk: bool, pingOk: bool) returns (r: Acquired<MongoClient>)
      modifies this, if |cs| > 0 then {cs[0]} else {}
      ensures var dial := if r.Got? && |old(cs)| == 0 then Some(r.client) else None;
              var a := GetClientStep(old(State()), maxClient, dial, pingOk);
              State() == a.post && r == a.result
      ensures |old(cs)| == 0 && old(size) < maxClient ==>
                (r.Got? <==> dialOk) && (r.Got? ==> fresh(r.client) && r.client.connected)
      ensures |old(cs)| > 0 && !pingOk ==> !old(cs)[0].connected
      ensures |old(cs)| > 0 && pingOk ==> unchanged(old(cs)[0])
      ensures out == if r.Got? then old(out) + multiset{r.client} else old(out)
      ensures old(Valid()) ==> Valid()
      ensures old(Valid()) && r.Got? ==> r.client.connected
    {
      ghost var w := World(State(), out);
      if |cs| == 0 {
        if size < maxClient {
          var mgc := new MongoClient();
          var ok := mgc.Connect(dialOk);
          if !ok {
            return Failed(DialFailed);
          }
          size := size + 1;
          out := out + multiset{mgc};
          if Inv(w, maxClient) {
            GetClientKeepsInv(w, maxClient, Some(mgc), pingOk);
          }
          return Got(mgc);
        }
        return Failed(PoolFulled);
      }

      var client := cs[0];
      cs := cs[1..];
      if !pingOk {
        size := size - 1;
        client.Close();
        r := Failed(PingFailed);
      } else {
        out := out + multiset{client};
        r := Got(client);
      }
      if Inv(w, maxClient) {
        GetClientKeepsInv(w, maxClient, None, pingOk);
      }
    }

    /** One pass of Close's loop: stop when size is zero, wait when nothing
        is idle, otherwise close every idle connection, empty the free list
        and count them out.  In a valid pool every listed client is connected
        and listed once, so each close here is that client's first. */
    method DrainStep() returns (outcome: DrainOutcome)
      modifies this, cs
      ensures var d := CloseStep(old(State())); State() == d.post && outcome == d.outcome
      ensures outcome == ClosedIdle ==> forall c | c in old(cs) :: !c.connected
      ensures outcome != ClosedIdle ==> forall c | c in old(cs) :: c.connected == old(c.connected)
      ensures out == old(out)
      ensures old(Valid()) ==> Valid()
    {
      if size == 0 {
        return Stopped;
      }
      var n := |cs|;
      if n == 0 {
        return Waiting;
      }
      var i := 0;
      while i < n
        invariant 0 <= i <= n == |cs| && cs == old(cs) && size == old(size) && out == old(out)
        invariant forall j | 0 <= j < i :: !cs[j].connected
        invariant old(Valid()) ==> forall c | c in out :: c.connected
      {
        cs[i].Close();
        i := i + 1;
      }
      cs := cs[n..];
      size := size - n;
      outcome := ClosedIdle;
    }

    /** The pattern every facade verb follows: acquire; on failure return the
        pool's error without running the operation; otherwise run it (its
        outcome is `driver`), release the connection on the way out (the
        deferred freeClient) and forward the driver's result. */
    method Borrow<T>(dialOk: bool, pingOk: bool, driver: DriverResult<T>) returns (r: Reply<T>)
      modifies this, if |cs| > 0 then {cs[0]} else {}
      ensures |old(cs)| > 0 && pingOk ==>
                cs == old(cs)[1..] + [old(cs)[0]] && size == old(size) && r == Forward(driver)
      ensures |old(cs)| > 0 && !pingOk ==>
                cs == old(cs)[1..] && size == old(size) - 1 && r == PoolErr(PingFailed)
                && !old(cs)[0].connected
      ensures |old(cs)| == 0 && old(size) >= maxClient ==>
                cs == old(cs) && size == old(size) && r == PoolErr(PoolFulled)
      ensures |old(cs)| == 0 && old(size) < maxClient && dialOk ==>
                |cs| == 1 && fresh(cs[0]) && cs[0].connected && size == old(size) + 1 && r == Forward(driver)
      ensures |old(cs)| == 0 && old(size) < maxClient && !dialOk ==>
                cs == old(cs) && size == old(size) && r == PoolErr(DialFailed)
      ensures out == old(out)
      ensures old(Valid()) ==> Valid()
    {
      var got := GetClient(dialOk, pingOk);
      if got.Failed? {
        return PoolErr(got.error);
      }
      r := Forward(driver);
      FreeClient(got.client);
      assert out == old(out) + multiset{got.client} - multiset{got.client};
    }
  }
}

=== FILE: pool_spec.dfy ===
/** The connection pool of mongo.go, stated on values.

    A `MongoDB` pool holds an idle free list `cs` and a live counter `size`
    (connections dialled and not yet evicted or drained).  Each of its
    operations runs under one mutex, so each is one atomic step here.  The
    network (dial, ping) enters as outcome parameters; connections are of an
    abstract type `C`, so nothing here depends on what a connection is. */
module PoolSpec {

  datatype Option<T> = None | Some(value: T)

  /** The errors getClient hands back to its caller. */
  datatype Error =
    | DialFailed   // connect reported an error
    | PoolFulled   // "mongoDB dbpooling is fulled": nothing idle and size has reached MaxClient
    | PingFailed   // the liveness probe on the reused connection failed

  datatype Acquired<C> = Got(client: C) | Failed(error: Error)

  /** The state the pool's mutex protects. */
  datatype PoolState<C> = PoolState(cs: seq<C>, size: int)

  /** Everything one getClient call does: the new state, what the caller
      receives, whether a new connection was dialled, and which connections
      were closed. */
  datatype Acquire<C> = Acquire(post: PoolState<C>, result: Acquired<C>, dialed: bool, closed: seq<C>)

  /** getClient.  `dial` is the outcome of the dial, consulted only when one
      happens (None: connect failed); `pingOk` is the outcome of the probe on a
      reused connection. */
  function GetClientStep<C>(s: PoolState<C>, maxClient: int, dial: Option<C>, pingOk: bool): (r: Acquire<C>)
    // a dial happens exactly when nothing is idle and there is room
    ensures r.dialed <==> |s.cs| == 0 && s.size < maxClient
    // reuse takes the front of the list; the rest keep their order
    ensures |s.cs| > 0 ==> r.post.cs == s.cs[1..] && (r.result.Got? <==> pingOk)
    ensures |s.cs| > 0 && pingOk ==> r.result.client == s.cs[0] && r.post.size == s.size && r.closed == []
    // a failed probe evicts: closed, not returned, counted out exactly once, no retry
    ensures |s.cs| > 0 && !pingOk ==>
              r.result == Failed(PingFailed) && r.post.size == s.size - 1 && r.closed == [s.cs[0]]
    // fail-fast exhaustion changes nothing
    ensures |s.cs| == 0 && s.size >= maxClient ==> r.result == Failed(PoolFulled) && r.post == s && r.closed == []
    // a dialled connection goes to the caller, not to the idle list
    ensures r.dialed ==> r.closed == [] && (r.result.Got? <==> dial.Some?)
    ensures r.dialed && dial.Some? ==> r.result.client == dial.value && r.post == PoolState(s.cs, s.size + 1)
    ensures r.dialed && dial.None? ==> r.result == Failed(DialFailed) && r.post == s
    // the only increment is behind the room check
    ensures r.post.size > s.size ==> s.size < maxClient && r.post.size == s.size + 1
  {
    if |s.cs| == 0 then
      if s.size < maxClient then
        match dial
        case Some(c) => Acquire(PoolState(s.cs, s.size + 1), Got(c), true, [])
        case None => Acquire(s, Failed(DialFailed), true, [])
      else
        Acquire(s, Failed(PoolFulled), false, [])
    else
      var client := s.cs[0];
      if pingOk then
        Acquire(PoolState(s.cs[1..], s.size), Got(client), false, [])
      else
        Acquire(PoolState(s.cs[1..], s.size - 1), Failed(PingFailed), false, [client])
  }

  /** freeClient: append, with no check that the connection came from here. */
  function FreeClientStep<C>(s: PoolState<C>, free: C): (r: PoolState<C>)
    ensures r.cs == s.cs + [free] && r.size == s.size
  {
    PoolState(s.cs + [free], s.size)
  }

  /** What one pass of Close's drain loop does. */
  datatype DrainOutcome =
    | Stopped      // size is zero: the loop ends
    | Waiting      // nothing idle yet, some connections still checked out: sleep and poll again
    | ClosedIdle   // every idle connection was closed and counted out

  datatype Drain<C> = Drain(post: PoolState<C>, outcome: DrainOutcome, closed: seq<C>)

  /** One pass of Close's loop, with the mutex released at the end of every
      pass (see AsWritten for the pass as the source writes it). */
  function CloseStep<C>(s: PoolState<C>): (r: Drain<C>)
    ensures r.outcome == Stopped <==> s.size == 0
    ensures r.outcome == Waiting <==> s.size != 0 && |s.cs| == 0
    ensures r.outcome != ClosedIdle ==> r.post == s && r.closed == []
    ensures r.outcome == ClosedIdle ==> r.closed == s.cs && |s.cs| > 0 && r.post == PoolState([], s.size - |s.cs|)
  {
    if s.size == 0 then Drain(s, Stopped, [])
    else if |s.cs| == 0 then Drain(s, Waiting, [])
    else Drain(PoolState([], s.size - |s.cs|), ClosedIdle, s.cs)
  }

  /** The connections of a list of batches, in order. */
  function Flatten<C>(batches: seq<seq<C>>): seq<C>
  {
    if |batches| == 0 then [] else batches[0] + Flatten(batches[1..])
  }

  /** Where Close's loop ends and which connections it closed, in order. */
  datatype Shutdown<C> = Shutdown(post: PoolState<C>, closed: seq<C>)

  /** Close's whole drain loop.  While it sleeps, other callers hand back
      the connections they hold: `released[i]` is what has been freed by the
      i-th sleep.  The loop stops when size reaches zero, or when no further
      release is recorded (the rest of the wait is not modelled).  It closes
      connections in the order they became idle, each closed one counted out,
      and ends with either a zero counter or nothing idle. */
  function CloseRun<C>(s: PoolState<C>, released: seq<seq<C>>): (r: Shutdown<C>)
    ensures r.post.size == s.size - |r.closed|
    ensures r.post.size == 0 || r.post.cs == []
    ensures r.closed + r.post.cs <= s.cs + Flatten(released)
    ensures r.post.size != 0 ==> r.closed == s.cs + Flatten(released) && r.post.cs == []
    ensures s.size != 0 ==> r.post.cs == []
    decreases |released|, |s.cs|
  {
    if s.size == 0 then Shutdown(s, [])
    else if |s.cs| == 0 then
      if |released| == 0 then Shutdown(s, [])
      else
        assert s.cs + Flatten(released) == released[0] + Flatten(released[1..]);
        CloseRun(PoolState(released[0], s.size), released[1..])
    else
      var rest := CloseRun(PoolState([], s.size - |s.cs|), released);
      PrefixUnderPrepend(s.cs, rest.closed, rest.post.cs, Flatten(released));
      Shutdown(rest.post, s.cs + rest.closed)
  }

  /** Putting the same connections in front keeps a prefix a prefix. */
  lemma PrefixUnderPrepend<C>(front: seq<C>, closed: seq<C>, idle: seq<C>, all: seq<C>)
    requires closed + idle <= all
    ensures (front + closed) + idle <= front + all
  {
    assert (front + closed) + idle == front + (closed + idle);
  }

  /** Drain-to-zero: once every checked-out connection comes back, Close
      ends with an empty free list and a zero counter, having closed exactly
      the idle connections followed by every connection handed back. */
  lemma CloseRunDrains<C>(s: PoolState<C>, released: seq<seq<C>>)
    requires s.size == |s.cs| + |Flatten(released)|
    ensures CloseRun(s, released) == Shutdown(PoolState([], 0), s.cs + Flatten(released))
  {
    // CloseRun's own contract already gives both the empty end state and the closed list.
  }


  // ----- accounting: who holds which connection -----

  /** The pool together with the connections callers hold (`out`). */
  datatype World<C> = World(pool: PoolState<C>, out: multiset<C>)

  ghost predicate Distinct<C>(s: seq<C>)
  {
    forall i, j | 0 <= i < j < |s| :: s[i] != s[j]
  }

  /** The pool's invariant: the counter is within bounds, counts exactly the
      idle and the held connections, and no connection is in two places. */
  ghost predicate Inv<C>(w: World<C>, maxClient: int)
  {
    0 <= w.pool.size <= maxClient
    && |w.pool.cs| + |w.out| == w.pool.size
    && Distinct(w.pool.cs)
    && forall c | c in w.out :: w.out[c] == 1 && c !in w.pool.cs
  }

  /** A caller's call on the pool. */
  datatype Op<C> = Get(dial: Option<C>, pingOk: bool) | Free(client: C)

  function Step<C>(w: World<C>, maxClient: int, op: Op<C>): World<C>
  {
    match op
    case Get(dial, pingOk) =>
      var a := GetClientStep(w.pool, maxClient, dial, pingOk);
      World(a.post, if a.result.Got? then w.out + multiset{a.result.client} else w.out)
    case Free(c) =>
      World(FreeClientStep(w.pool, c), w.out - multiset{c})
  }

  /** What a well-behaved environment does: a dial yields a connection that
      is new, and a caller frees only a connection it holds. */
  ghost predicate Allowed<C>(w: World<C>, op: Op<C>)
  {
    match op
    case Get(dial, _) => dial.Some? ==> dial.value !in w.pool.cs && dial.value !in w.out
    case Free(c) => c in w.out
  }

  function Run<C>(w: World<C>, maxClient: int, ops: seq<Op<C>>): World<C>
    decreases |ops|
  {
    if |ops| == 0 then w else Run(Step(w, maxClient, ops[0]), maxClient, ops[1..])
  }

  ghost predicate Lawful<C>(w: World<C>, maxClient: int, ops: seq<Op<C>>)
    decreases |ops|
  {
    |ops| == 0 || (Allowed(w, ops[0]) && Lawful(Step(w, maxClient, ops[0]), maxClient, ops[1..]))
  }

  /** getClient keeps the invariant when a dial yields a new connection. */
  lemma GetClientKeepsInv<C>(w: World<C>, maxClient: int, dial: Option<C>, pingOk: bool)
    requires Inv(w, maxClient) && Allowed(w, Get(dial, pingOk))
    ensures Inv(Step(w, maxClient, Get(dial, pingOk)), maxClient)
  {
  }

  /** freeClient keeps the invariant when the caller holds the connection. */
  lemma FreeClientKeepsInv<C>(w: World<C>, maxClient: int, c: C)
    requires Inv(w, maxClient) && Allowed(w, Free(c))
    ensures Inv(Step(w, maxClient, Free(c)), maxClient)
  {
  }

  /** Any one well-behaved call keeps the invariant. */
  lemma StepKeepsInv<C>(w: World<C>, maxClient: int, op: Op<C>)
    requires Inv(w, maxClient) && Allowed(w, op)
    ensures Inv(Step(w, maxClient, op), maxClient)
  {
    match op
    case Get(dial, pingOk) => GetClientKeepsInv(w, maxClient, dial, pingOk);
    case Free(c) => FreeClientKeepsInv(w, maxClient, c);
  }

  /** Any sequence of well-behaved acquires and releases keeps the invariant:
      size <= MaxClient, idle plus held equals size, no connection shared. */
  lemma {:induction false} RunKeepsInv<C>(w: World<C>, maxClient: int, ops: seq<Op<C>>)
    requires Inv(w, maxClient) && Lawful(w, maxClient, ops)
    ensures Inv(Run(w, maxClient, ops), maxClient)
    decreases |ops|
  {
    if |ops| > 0 {
      StepKeepsInv(w, maxClient, ops[0]);
      RunKeepsInv(Step(w, maxClient, ops[0]), maxClient, ops[1..]);
    }
  }

  /** The bound alone needs no good behaviour: whatever is freed, size never
      passes MaxClient once it starts at or below it. */
  lemma {:induction false} RunKeepsBound<C>(w: World<C>, maxClient: int, ops: seq<Op<C>>)
    requires w.pool.size <= maxClient
    ensures Run(w, maxClient, ops).pool.size <= maxClient
    decreases |ops|
  {
    if |ops| > 0 {
      RunKeepsBound(Step(w, maxClient, ops[0]), maxClient, ops[1..]);
    }
  }

  /** Draining keeps the accounting: the held connections remain counted. */
  lemma CloseStepKeepsInv<C>(w: World<C>, maxClient: int)
    requires Inv(w, maxClient)
    ensures Inv(World(CloseStep(w.pool).post, w.out), maxClient)
  {
  }

  /** freeClient does not check membership: handing back a connection that
      is already idle lists it twice and leaves one more connection accounted
      for than the counter holds, so the invariant is lost. */
  lemma DoubleFreeBreaksAccounting<C>(w: World<C>, maxClient: int, c: C)
    requires Inv(w, maxClient) && c in w.pool.cs
    ensures var w' := Step(w, maxClient, Free(c));
            |w'.pool.cs| + |w'.out| == w'.pool.size + 1 && !Inv(w', maxClient)
  {
    var w' := Step(w, maxClient, Free(c));
    var i :| 0 <= i < |w.pool.cs| && w.pool.cs[i] == c;
    assert w'.pool.cs[i] == c && w'.pool.cs[|w'.pool.cs| - 1] == c;
  }

  // ----- Init's pre-warming -----

  /** The number of dials Init completes counting from `i`: it stops at the
      first failed dial or after MinClient dials. */
  function DialsUntilFailure(dialOk: nat -> bool, i: nat, minClient: int): (k: nat)
    ensures i <= k
    ensures i < minClient ==> k <= minClient
    ensures i >= minClient ==> k == i
    ensures forall j :: i <= j < k ==> dialOk(j)
    ensures k < minClient ==> !dialOk(k)
    decreases minClient - i
  {
    if i >= minClient || !dialOk(i) then i else DialsUntilFailure(dialOk, i + 1, minClient)
  }

  /** The stop point is unique: the first failure, or MinClient. */
  lemma DialsUntilFailureIs(dialOk: nat -> bool, minClient: int, n: nat)
    requires forall j :: 0 <= j < n ==> dialOk(j)
    requires n >= minClient || !dialOk(n)
    requires n <= minClient || n == 0
    ensures DialsUntilFailure(dialOk, 0, minClient) == n
  {
  }

  /** With every dial succeeding, Init pre-warms exactly MinClient connections. */
  lemma AllDialsSucceed(dialOk: nat -> bool, minClient: nat)
    requires forall j :: 0 <= j < minClient ==> dialOk(j)
    ensures DialsUntilFailure(dialOk, 0, minClient) == minClient
  {
    DialsUntilFailureIs(dialOk, minClient, minClient);
  }

  /** The pool right after Init with MinClient connections and nothing held
      satisfies the invariant exactly when MinClient <= MaxClient. */
  lemma PrewarmedInv<C>(cs: seq<C>, maxClient: int)
    requires Distinct(cs)
    ensures Inv(World(PoolState(cs, |cs|), multiset{}), maxClient) <==> |cs| <= maxClient
  {
  }

  /** MinClient = 2, MaxClient = 3, nobody releasing: the first two acquires
      reuse the pre-warmed connections without dialling, the third dials and
      brings size to 3, the fourth fails fast with PoolFulled. */
  lemma MinTwoMaxThreeScenario<C>(a: C, b: C, d: C, anyDial: Option<C>)
    ensures var g1 := GetClientStep(PoolState([a, b], 2), 3, anyDial, true);
            var g2 := GetClientStep(g1.post, 3, anyDial, true);
            var g3 := GetClientStep(g2.post, 3, Some(d), true);
            var g4 := GetClientStep(g3.post, 3, anyDial, true);
            && g1.result == Got(a) && !g1.dialed
            && g2.result == Got(b) && !g2.dialed
            && g3.result == Got(d) && g3.dialed && g3.post.size == 3
            && g4.result == Failed(PoolFulled) && !g4.dialed && g4.post == g3.post
  {
  }
}
